=== FILE: README.md ===
# Reddit Dad Jokes skill — a verified model

The skill (`index.js`) is an Alexa skill backend. On a launch request or the
`GetJokeIntent` intent it fetches the hot listing of r/dadjokes, picks one
submission at random and speaks it as a joke: the trimmed title, closed with a
full stop unless it already ends in one of `. ! ? , ; :`, one space, and the
trimmed self text. An intent named `AMAZON.HelpHandler` (not the built-in
`AMAZON.HelpIntent`) gets a fixed help sentence, a session end gets
an empty response, and anything no handler accepts is answered by the error
handler with a fixed joke spoken and offered as reprompt.

The model is written in Dafny as pure functions over immutable datatypes:

- `wrappers.dfy` — `Option` and `Result`.
- `text.dfy` (module `Text`) — JavaScript's `String.prototype.trim`, over the
  exact ECMAScript whitespace and line-terminator characters.
- `random.dfy` (module `Random`) — `getRandomInt` and the index `getJoke`
  draws. `Math.floor(Math.random() * k)` is a parameter `draw` restricted by
  `ValidDraw(k, draw)` to the values that expression can take.
- `jokes.dfy` (module `Jokes`) — the title and joke formatting.
- `fetch.dfy` (module `Fetch`) — `getJoke` as written (`GetJoke`) and as
  evidently intended (`FetchJoke`). The Reddit listing is a parameter `Feed`.
- `skill.dfy` (module `Skill`) — the handlers' `canHandle`/`handle` pairs,
  first-match routing in registration order, the whole skill as written
  (`Invoke`), and the skill with the findings below corrected
  (`InvokeCorrected`).

The model follows the code, including where the code departs from what it
evidently intends:

- Failures inside `getJoke` are not passed to the error handler. A rejected
  `getHot()` rejects the promise `.then` returns, which has no rejection
  handler. A throw inside the `.then` callback rejects that same promise.
  Either way `resolve` is never called, so the outer promise never settles.
- The help handler accepts only the intent name `AMAZON.HelpHandler`. The
  platform's built-in `AMAZON.HelpIntent` is accepted by no handler and gets
  the error joke.
- `getJoke` draws its index with `getRandomInt(0, listing.length)`, which is
  inclusive at both ends, so it can read one past the last submission, and an
  empty listing is always indexed out of range instead of being reported.

The code also has no cancel or stop handler and no reprompt on the joke reply,
and a title ending in several marks, such as `"Why?!"`, keeps them all; the
model states each of these as the code has it.

When no request handler accepts a request, the Alexa SDK raises an error and
the registered error handler answers. That step is SDK behaviour that the file
does not show; the model takes it as an assumption (`Route` returns `None`).

## Model

| member | source | states |
|---|---|---|
| `Text.IsWhitespace` | index.js:31 | the characters `trim` removes: ECMAScript's WhiteSpace and LineTerminator characters |
| `Text.Trim` | index.js:31 | the trimmed string has no whitespace at either end and is no longer than the input |
| `Text.TrimSplit` | index.js:31 | trimming removes only whitespace: the input is a whitespace prefix, the trimmed string and a whitespace suffix |
| `Text.TrimOfPadded` | index.js:36 | a string with no whitespace at its ends, padded with whitespace on both sides, trims back to itself, so the trimmed form is unique |
| `Text.TrimIdempotent` | index.js:31 | trimming twice equals trimming once |
| `Text.TrimAllWhitespace` | index.js:31 | a whitespace-only string trims to the empty string |
| `Random.ValidDraw` | index.js:20 | the values `Math.floor(Math.random() * k)` can take for an integer `k`: [0, k) when `k` is positive, 0 when it is zero, [k, 0] when it is negative |
| `Random.RandomInt` | index.js:15-21 | for `min <= max` the result lies in [min, max] inclusive; for `min > max` it lies in (max, min] |
| `Random.RandomIntCovers` | index.js:15-21 | each value of [min, max] comes from exactly one draw, so the result is uniform over the inclusive range |
| `Random.SubmissionIndex` | index.js:29 | the index `getJoke` draws lies in [0, listing.length]; for an empty listing it equals the length |
| `Random.SubmissionIndexCanOverrun` | index.js:29-30 | for every listing length, some draw selects index `listing.length`, one past the last submission |
| `Random.SubmissionIndexFixed` | index.js:29 | corrected selection `getRandomInt(0, length - 1)` for a non-empty listing always gives a valid position |
| `Random.SubmissionIndexFixedCovers` | index.js:29 | under the corrected selection, every position comes from exactly one draw |
| `Jokes.EndsInTerminal` | index.js:32 | the test `/[.!?,;:]$/`: the string is non-empty and its last character is one of the six marks |
| `Jokes.FormatTitle` | index.js:31-34 | the spoken title ends in one of `. ! ? , ; :` and has no whitespace at either end; it begins with the trimmed title and adds at most one character; it equals the trimmed title exactly when that title already ends in a mark, and is the trimmed title followed by `.` otherwise |
| `Jokes.FormatTitleBlank` | index.js:31-34 | a title that is blank after trimming is spoken as `"."` |
| `Jokes.FormatTitleIdempotent` | index.js:31-34 | formatting an already formatted title changes nothing, so `.` is never added twice |
| `Jokes.FormatJoke` | index.js:36 | the joke is the formatted title, one space, and the trimmed self text; it starts with a non-whitespace character; it ends in whitespace exactly when the self text is blank (the trailing-space quirk) |
| `Jokes.FormatJokeIgnoresPadding` | index.js:31-36 | whitespace around the title or the self text never changes the joke |
| `Jokes.TrimOfJoke` | index.js:36 | the trailing space for a blank self text is the only untrimmed whitespace a joke can carry |
| `Fetch.GetJoke` | index.js:26-40 | `getJoke` resolves exactly when the feed answered and the drawn index is inside the listing, and then with the formatted submission at that index; otherwise it never settles |
| `Fetch.GetJokeEmptyNeverSettles` | index.js:29-31 | on an empty listing `getJoke` never resolves, whatever the draw |
| `Fetch.GetJokeCanStall` | index.js:28-38 | for every listing, some draw leaves `getJoke` pending for ever |
| `Fetch.FetchJoke` | index.js:26-40 | corrected fetch: an unavailable feed and an empty listing are reported as errors, exactly in those cases; otherwise the joke is the formatted submission at the position the corrected index selects for this draw |
| `Fetch.FetchJokeTellsListedSubmission` | index.js:29-36 | corrected fetch: a joke it returns is the formatting of some submission of the listing |
| `Fetch.FetchJokeCovers` | index.js:29-30 | corrected fetch: every submission of a non-empty listing can be the one told |
| `Fetch.FetchJokeAgreesWhenSettled` | index.js:29-37 | whenever `getJoke` resolves, the corrected fetch with the same draw returns the same joke |
| `Skill.CanHandle` | index.js:44-79 | the three `canHandle` tests: GetJokeHandler accepts a launch or the `GetJokeIntent` intent, HelpHandler accepts the configured help intent name, SessionEndedRequestHandler accepts a session end |
| `Skill.FirstMatch` | index.js:104-109 | first-match selection: the chosen handler accepts the request and no earlier one does; none is chosen exactly when no handler accepts |
| `Skill.Route` | index.js:43-109 | launch and `GetJokeIntent` go to GetJokeHandler; the help intent name goes to HelpHandler unless it equals `GetJokeIntent`, which is registered first; session ends go to SessionEndedRequestHandler; every other request falls to the error handler |
| `Skill.RouteIsOrderIndependent` | index.js:43-109 | when the help intent differs from `GetJokeIntent`, no request is accepted by two request handlers, and the route is exactly the handler that accepts |
| `Skill.JokeResponse` | index.js:54-58 | the joke reply: the joke spoken, repeated on a card titled `Reddit Dad Jokes`, session ended, no reprompt |
| `Skill.HelpResponse` | index.js:69-71 | the help reply: only the help sentence is spoken; no card, reprompt or session flag |
| `Skill.ErrorResponse` | index.js:94-98 | the error reply: the same fixed joke as speech and reprompt; no card and no session flag |
| `Skill.Invoke` | index.js:43-110 | the skill's reply to one request. A joke request whose `getJoke` never settles gets no reply; a joke reply speaks exactly the joke `getJoke` resolved with for this draw, shows it on a card titled `Reddit Dad Jokes` and ends the session. Help speaks only the help sentence; a session end gets an empty response; an unhandled request gets the error joke as speech and reprompt |
| `Skill.ReplyIdentifiesHandler` | index.js:51-98 | only the joke reply carries a card and ends the session; only the error reply carries a reprompt; only the session-end reply is silent |
| `Skill.LaunchTellsJoke` | index.js:44-58 | a launch with a usable draw is answered with a non-empty joke, on a card titled with the skill name and holding the spoken text |
| `Skill.JokeReplyTellsListedSubmission` | index.js:44-58 | a joke reply, as written or corrected, speaks the formatting of some submission of the listing the feed returned |
| `Skill.JokeRequestGoesSilent` | index.js:27-52 | with the feed unavailable, a joke request gets no reply, and the error handler never runs |
| `Skill.BuiltInHelpIsUnhandled` | index.js:62-67 | the built-in `AMAZON.HelpIntent` is not accepted by the help handler and is answered with the error joke |
| `Skill.StopIntentGetsErrorJoke` | index.js:86-109 | with no cancel or stop handler registered, `AMAZON.StopIntent` and `AMAZON.CancelIntent` get the error joke |
| `Skill.InvokeCorrected` | index.js:43-110 | corrected skill: every request gets a reply. A joke request gets the error reply exactly when the feed is unavailable or empty, and otherwise a joke reply telling exactly the joke the corrected fetch returns for this draw. `AMAZON.HelpIntent` gets the help reply, a session end the empty response, an unhandled request the error reply |
| `Skill.CorrectedAgreesWithReplies` | index.js:43-110 | apart from the two help intent names, every reply the skill as written gives is also the corrected skill's reply |

## Left out

- The `snoowrap` client, its credentials from environment variables and the
  `getHot()` network call (index.js:5-10, 28). The listing it yields, or its
  failure, is the `Feed` parameter.
- The asynchronous plumbing of `getJoke` and `handle`. The model records only
  whether the promise settles (`JokeOutcome`). A promise that never settles
  becomes `NoReply`. Whether the invocation then times out or the runtime
  aborts on the unhandled rejection is host behaviour and is not modelled.
- `Math.random()` as a floating-point number. The model uses the integer
  `floor(random * k)` and the values it can take. Rounding of the product in
  floating point is not modelled.
- The Alexa SDK: `SkillBuilders`, the response builder's internals and
  `.lambda()` (index.js:102-111). The response is the record of builder calls.
  This leaves out the SSML wrapping of speech and any field the builder sets
  on its own, such as a session flag it may derive from a reprompt.
- `console.log` diagnostics (index.js:81, 91-92). The session-end reason is
  carried in the request but has no effect on the reply.
- JavaScript strings are UTF-16 code units, while the model's strings are
  Unicode scalar values. Neither trimming nor the final-mark test depends on
  that difference.

## Findings

| source | as written | input that shows it | evidently intended | confidence | as-written member | corrected member |
|---|---|---|---|---|---|---|
| index.js:29 | `getRandomInt(0, listing.length)` is inclusive at both ends, so it can pick `listing.length` | a one-submission listing with `Math.random()` at 0.5 or more draws index 1; any draw on an empty listing draws index 0 | an index in [0, length), with an empty listing reported | high; not executed | `Random.SubmissionIndexCanOverrun` | `Random.SubmissionIndexFixed` |
| index.js:27-38 | a rejected `getHot()` or a throw in the `.then` callback never reaches `resolve`, and nothing rejects | the feed call fails, or the index above is out of range | the failure reaches the error handler, which answers | high; not executed | `Skill.JokeReplyTellsListedSubmission` | index.js:44-58 | a joke reply, as written or corrected, speaks the formatting of some submission of the listing the feed returned |
| `Skill.JokeRequestGoesSilent` | `Skill.InvokeCorrected` |
| index.js:66 | HelpHandler accepts only the intent name `AMAZON.HelpHandler` | an `IntentRequest` for the built-in `AMAZON.HelpIntent` | the built-in help intent gets the help sentence | medium; not executed | `Skill.BuiltInHelpIsUnhandled` | `Skill.InvokeCorrected` |

=== FILE: fetch.dfy ===
/**
  `getJoke` (index.js:26-40): pick a submission of the hot listing of
  r/dadjokes at random and format it.

  The Reddit call is not modelled: its outcome is the `Feed` parameter, either
  the listing it resolved with or `Unavailable` when its promise rejects. The
  random value is the `draw` parameter (see `Random.ValidDraw`).

  As written, a rejected `getHot()` and a throw inside the `.then` callback
  both reject only the promise `.then` returns, which nothing handles. The
  promise `getJoke` returns stays pending for ever: `resolve` is never reached
  and the executor never receives `reject`. `GetJoke` models that;
  `FetchJoke` is the evidently intended version that reports the failure.
 */
module Fetch {
  import opened Wrappers
  import opened Random
  import opened Jokes

  datatype Feed = Hot(listing: seq<Submission>) | Unavailable

  /** What the promise returned by `getJoke` does: resolve with a joke, or
      never settle. */
  datatype JokeOutcome = Settled(joke: string) | NeverSettles

  /** The failures the corrected fetch reports instead of stalling. */
  datatype FetchError = FeedUnavailable | EmptyListing

  /** The draws `getJoke` can consume: `getRandomInt(0, listing.length)`
      draws over one more value than the listing has submissions. */
  predicate ValidJokeDraw(feed: Feed, draw: int) {
    feed.Hot? ==> ValidDraw(|feed.listing| + 1, draw)
  }

  /** `getJoke` as written. It settles exactly when the feed answered and the
      chosen index is a real position of the listing, and then the joke is
      the formatting of the submission at that position. */
  function GetJoke(feed: Feed, draw: int): (r: JokeOutcome)
    requires ValidJokeDraw(feed, draw)
    ensures r.Settled? <==> feed.Hot? && SubmissionIndex(|feed.listing|, draw) < |feed.listing|
    ensures r.Settled? ==> r.joke == FormatJoke(feed.listing[SubmissionIndex(|feed.listing|, draw)])
  {
    match feed
    case Unavailable => NeverSettles
    case Hot(listing) =>
      var i := SubmissionIndex(|listing|, draw);
      if i < |listing| then Settled(FormatJoke(listing[i])) else NeverSettles
  }

  /** An empty listing never yields a joke, whatever the draw. */
  lemma GetJokeEmptyNeverSettles(draw: int)
    requires ValidJokeDraw(Hot([]), draw)
    ensures GetJoke(Hot([]), draw) == NeverSettles
  {
  }

  /** Even a non-empty listing can leave `getJoke` pending: the draw that
      selects index `listing.length` reads `undefined`, whose `title` throws. */
  lemma GetJokeCanStall(listing: seq<Submission>) returns (draw: int)
    ensures ValidJokeDraw(Hot(listing), draw)
    ensures GetJoke(Hot(listing), draw) == NeverSettles
  {
    draw := SubmissionIndexCanOverrun(|listing|);
  }

  /** The corrected fetch: an unavailable feed and an empty listing are
      reported, and otherwise the index is drawn from the listing's own
      positions, so a joke always comes back. */
  function FetchJoke(feed: Feed, draw: int): (r: Result<string, FetchError>)
    requires feed.Hot? && |feed.listing| > 0 ==> ValidDraw(|feed.listing|, draw)
    ensures r == Failure(FeedUnavailable) <==> feed.Unavailable?
    ensures r == Failure(EmptyListing) <==> feed == Hot([])
    ensures r.Success? ==> r.value == FormatJoke(feed.listing[SubmissionIndexFixed(|feed.listing|, draw)])
  {
    match feed
    case Unavailable => Failure(FeedUnavailable)
    case Hot(listing) =>
      if |listing| == 0 then Failure(EmptyListing)
      else Success(FormatJoke(listing[SubmissionIndexFixed(|listing|, draw)]))
  }

  /** The corrected fetch only ever tells a submission of the listing. */
  lemma FetchJokeTellsListedSubmission(feed: Feed, draw: int) returns (i: nat)
    requires feed.Hot? && |feed.listing| > 0 ==> ValidDraw(|feed.listing|, draw)
    requires FetchJoke(feed, draw).Success?
    ensures i < |feed.listing| && FetchJoke(feed, draw).value == FormatJoke(feed.listing[i])
  {
    i := SubmissionIndexFixed(|feed.listing|, draw);
  }

  /** Every submission of a non-empty listing can be the one told; by
      `Random.SubmissionIndexFixedCovers` its draw is unique, so a uniform
      draw picks among the positions uniformly. */
  lemma FetchJokeCovers(listing: seq<Submission>, i: nat) returns (draw: int)
    requires i < |listing|
    ensures ValidDraw(|listing|, draw)
    ensures FetchJoke(Hot(listing), draw) == Success(FormatJoke(listing[i]))
  {
    draw := SubmissionIndexFixedCovers(|listing|, i);
  }

  /** Where the source does produce a joke, the corrected fetch with the same
      draw produces the same one. */
  lemma FetchJokeAgreesWhenSettled(feed: Feed, draw: int)
    requires ValidJokeDraw(feed, draw)
    requires GetJoke(feed, draw).Settled?
    ensures feed.Hot? && |feed.listing| > 0 && ValidDraw(|feed.listing|, draw)
    ensures FetchJoke(feed, draw) == Success(GetJoke(feed, draw).joke)
  {
    var count := |feed.listing|;
    assert SubmissionIndex(count, draw) == draw;
    assert ValidDraw(count, draw);
    assert SubmissionIndexFixed(count, draw) == draw;
  }
}

=== FILE: jokes.dfy ===
/**
  How `getJoke` turns one Reddit submission into the spoken joke
  (index.js:31-36): the trimmed title, closed with a full stop unless it
  already ends in punctuation, then one space, then the trimmed self text.
 */
module Jokes {
  import opened Text

  /** A submission from the listing; only the two fields the joke uses. */
  datatype Submission = Submission(title: string, selftext: string)

  /** The characters the source's pattern `[.!?,;:]$` accepts as a title ending. */
  predicate IsTerminal(c: char) {
    c == '.' || c == '!' || c == '?' || c == ',' || c == ';' || c == ':'
  }

  predicate EndsInTerminal(s: string) {
    |s| > 0 && IsTerminal(s[|s| - 1])
  }

  /** The title as spoken: trimmed, and closed with '.' when it does not
      already end in one of the six marks. The trimmed title is kept as a
      prefix and at most one character is added, so a title that already
      ends in a mark (even several, as in "Why?!") is left as it is. */
  function FormatTitle(title: string): (r: string)
    ensures EndsInTerminal(r)
    ensures r != [] && IsTrimmed(r)
    ensures |Trim(title)| <= |r| <= |Trim(title)| + 1
    ensures r[..|Trim(title)|] == Trim(title)
    ensures r == Trim(title) <==> EndsInTerminal(Trim(title))
    ensures !EndsInTerminal(Trim(title)) ==> r == Trim(title) + "."
  {
    var t := Trim(title);
    if EndsInTerminal(t) then t else t + "."
  }

  /** A title that is empty after trimming is spoken as a lone full stop. */
  lemma FormatTitleBlank(title: string)
    requires AllWhitespace(title)
    ensures FormatTitle(title) == "."
  {
    TrimAllWhitespace(title);
  }

  /** Formatting a formatted title changes nothing: the '.' is added at most
      once however often the title passes through the formatter. */
  lemma FormatTitleIdempotent(title: string)
    ensures FormatTitle(FormatTitle(title)) == FormatTitle(title)
  {
    var r := FormatTitle(title);
    TrimOfPadded([], r, []);
    assert [] + r + [] == r;
  }

  /** The spoken joke: formatted title, one space, trimmed self text.
      It starts with a non-whitespace character; the title part ends in a
      mark followed by exactly one space; the self text follows without
      leading whitespace; and the joke ends in whitespace exactly when the
      self text is blank (the trailing space the source leaves in). */
  function FormatJoke(s: Submission): (joke: string)
    ensures var head := FormatTitle(s.title);
      && |joke| == |head| + 1 + |Trim(s.selftext)|
      && joke[..|head|] == head
      && IsTerminal(joke[|head| - 1])
      && joke[|head|] == ' '
      && joke[|head| + 1..] == Trim(s.selftext)
    ensures !IsWhitespace(joke[0])
    ensures IsWhitespace(joke[|joke| - 1]) <==> Trim(s.selftext) == []
  {
    FormatTitle(s.title) + " " + Trim(s.selftext)
  }

  /** Only the trimmed fields matter: surrounding whitespace in the title or
      the self text never reaches the joke. */
  lemma FormatJokeIgnoresPadding(s: Submission)
    ensures FormatJoke(s) == FormatJoke(Submission(Trim(s.title), Trim(s.selftext)))
  {
    TrimIdempotent(s.title);
    TrimIdempotent(s.selftext);
  }

  /** Trimming the joke removes at most the one trailing space left when the
      self text is blank; otherwise the joke is already trimmed. */
  lemma TrimOfJoke(s: Submission)
    ensures Trim(s.selftext) == [] ==> Trim(FormatJoke(s)) == FormatTitle(s.title)
    ensures Trim(s.selftext) != [] ==> Trim(FormatJoke(s)) == FormatJoke(s)
  {
    var joke := FormatJoke(s);
    var head := FormatTitle(s.title);
    if Trim(s.selftext) == [] {
      assert joke == [] + head + " ";
      TrimOfPadded([], head, " ");
    } else {
      assert IsTrimmed(joke);
      TrimOfPadded([], joke, []);
      assert [] + joke + [] == joke;
    }
  }
}

=== FILE: random.dfy ===
/**
  The skill's random integer helper `getRandomInt` (index.js:15-21) and the
  submission index `getJoke` derives from it (index.js:29).

  `Math.floor(Math.random() * k)` is not computed here: the caller supplies its
  value as `draw`, and `ValidDraw(k, draw)` says which values it can take.
 */
module Random {

  /** The values `Math.floor(u * k)` takes for an integer `k` and a `u` in
      [0, 1): the integers in [0, k) when `k` is positive, only 0 when `k` is
      zero, and the integers in [k, 0] when `k` is negative. */
  predicate ValidDraw(k: int, draw: int) {
    if k > 0 then 0 <= draw < k else k <= draw <= 0
  }

  /** `getRandomInt(min, max)`: the draw over `max - min + 1` values, shifted by
      `min`. Documented in the source as inclusive at both ends; it is so when
      `min <= max`, and it stays within (max, min] otherwise. */
  function RandomInt(min: int, max: int, draw: int): (r: int)
    requires ValidDraw(max - min + 1, draw)
    ensures min <= max ==> min <= r <= max
    ensures max < min ==> max < r <= min
  {
    draw + min
  }

  /** Every integer of [min, max] is produced by exactly one draw, so a uniform
      draw gives a uniform result over the whole inclusive range. */
  lemma RandomIntCovers(min: int, max: int, v: int) returns (draw: int)
    requires min <= v <= max
    ensures ValidDraw(max - min + 1, draw) && RandomInt(min, max, draw) == v
    ensures forall d :: ValidDraw(max - min + 1, d) && RandomInt(min, max, d) == v ==> d == draw
  {
    draw := v - min;
  }

  /** The index `getJoke` reads from a listing of `count` submissions:
      `getRandomInt(0, listing.length)`. It ranges over [0, count], one more
      value than the listing has positions; on an empty listing it is 0. */
  function SubmissionIndex(count: nat, draw: int): (i: int)
    requires ValidDraw(count + 1, draw)
    ensures 0 <= i <= count
    ensures count == 0 ==> i == count
  {
    RandomInt(0, count, draw)
  }

  /** Whatever the listing's length, some draw makes `getJoke` read one past
      its last submission. */
  lemma SubmissionIndexCanOverrun(count: nat) returns (draw: int)
    ensures ValidDraw(count + 1, draw)
    ensures SubmissionIndex(count, draw) == count
  {
    draw := RandomIntCovers(0, count, count);
  }

  /** The index the selection evidently intends: `getRandomInt(0, count - 1)`,
      defined only for a non-empty listing, always a valid position. */
  function SubmissionIndexFixed(count: nat, draw: int): (i: nat)
    requires count > 0 && ValidDraw(count, draw)
    ensures i < count
  {
    RandomInt(0, count - 1, draw)
  }

  /** Every position of a non-empty listing is chosen by exactly one draw. */
  lemma SubmissionIndexFixedCovers(count: nat, i: nat) returns (draw: int)
    requires i < count
    ensures ValidDraw(count, draw) && SubmissionIndexFixed(count, draw) == i
    ensures forall d :: ValidDraw(count, d) && SubmissionIndexFixed(count, d) == i ==> d == draw
  {
    draw := RandomIntCovers(0, count - 1, i);
  }
}

=== FILE: skill.dfy ===
/**
  The skill's request handling (index.js:42-111): three request handlers,
  registered in the order GetJokeHandler, HelpHandler,
  SessionEndedRequestHandler, and ErrorHandler as the error handler.

  A request goes to the first registered handler whose `canHandle` accepts it.
  When none does, the SDK raises an error and the error handler answers; that
  step belongs to the Alexa SDK, not to this file, and is taken here as an
  assumption. The response is the record of what each `handle` asks the
  response builder for.
 */
module Skill {
  import opened Wrappers
  import opened Random
  import opened Jokes
  import opened Fetch

  const SkillName := "Reddit Dad Jokes"
  const HelpSpeech := "To hear a joke, ask reddit Dad Jokes for a joke."
  const ErrorJoke := "I applied to be a server years ago. To this day, I'm still waiting."
  const GetJokeIntent := "GetJokeIntent"

  /** The request kinds the platform sends, with the fields the handlers read.
      `OtherRequest` stands for every request type besides these three. */
  datatype Request =
    | LaunchRequest
    | IntentRequest(intentName: string)
    | SessionEndedRequest(reason: string)
    | OtherRequest

  datatype Card = SimpleCard(title: string, content: string)

  /** What a handler asks the response builder for: `speak`, `withSimpleCard`,
      `reprompt` and `withShouldEndSession`; a field left `None` was not set. */
  datatype Response = Response(
    speech: Option<string>,
    card: Option<Card>,
    reprompt: Option<string>,
    shouldEndSession: Option<bool>)

  const EmptyResponse := Response(None, None, None, None)

  /** What the skill returns for one request, or `NoReply` when the handler's
      promise never settles and no response is ever produced. */
  datatype Outcome = Reply(response: Response) | NoReply

  datatype Handler = GetJokeHandler | HelpHandler | SessionEndedRequestHandler

  /** The one name the routing depends on beyond the fixed ones: the intent the
      help handler answers. The source uses "AMAZON.HelpHandler". */
  datatype Config = Config(helpIntent: string)

  const AsWritten := Config("AMAZON.HelpHandler")

  /** The platform's built-in help intent, which the help handler evidently
      means to answer. */
  const Corrected := Config("AMAZON.HelpIntent")

  /** The registration order of the request handlers. */
  const RequestHandlers := [GetJokeHandler, HelpHandler, SessionEndedRequestHandler]

  /** Each handler's `canHandle`. */
  predicate CanHandle(cfg: Config, h: Handler, req: Request) {
    match h
    case GetJokeHandler =>
      req.LaunchRequest? || (req.IntentRequest? && req.intentName == GetJokeIntent)
    case HelpHandler =>
      req.IntentRequest? && req.intentName == cfg.helpIntent
    case SessionEndedRequestHandler =>
      req.SessionEndedRequest?
  }

  /** The position of the first handler of `hs` that accepts `req`, or `None`
      when none does. */
  function FirstMatch(cfg: Config, hs: seq<Handler>, req: Request): (r: Option<nat>)
    ensures r.Some? ==> r.value < |hs| && CanHandle(cfg, hs[r.value], req)
    ensures r.Some? ==> forall j :: 0 <= j < r.value ==> !CanHandle(cfg, hs[j], req)
    ensures r.None? <==> forall j :: 0 <= j < |hs| ==> !CanHandle(cfg, hs[j], req)
  {
    if hs == [] then None
    else if CanHandle(cfg, hs[0], req) then Some(0)
    else
      match FirstMatch(cfg, hs[1..], req)
      case None => None
      case Some(i) => Some(i + 1)
  }

  /** The request handler chosen for `req`, or `None` when the request falls
      through to the error handler. Launch and the get-joke intent go to
      GetJokeHandler; the configured help intent goes to HelpHandler unless it
      is also the get-joke intent, which is registered first; session ends go
      to SessionEndedRequestHandler; everything else is unhandled. */
  function Route(cfg: Config, req: Request): (r: Option<Handler>)
    ensures r == Some(GetJokeHandler) <==>
      req.LaunchRequest? || (req.IntentRequest? && req.intentName == GetJokeIntent)
    ensures r == Some(HelpHandler) <==>
      req.IntentRequest? && req.intentName == cfg.helpIntent && req.intentName != GetJokeIntent
    ensures r == Some(SessionEndedRequestHandler) <==> req.SessionEndedRequest?
    ensures r == None <==>
      req.OtherRequest?
      || (req.IntentRequest? && req.intentName != GetJokeIntent && req.intentName != cfg.helpIntent)
  {
    match FirstMatch(cfg, RequestHandlers, req)
    case None =>
      assert !CanHandle(cfg, RequestHandlers[1], req) && !CanHandle(cfg, RequestHandlers[2], req);
      None
    case Some(i) => Some(RequestHandlers[i])
  }

  /** When the help intent differs from the get-joke intent, no request is
      accepted by two request handlers, so the registration order never
      decides between them: the route is simply the handler that accepts. */
  lemma RouteIsOrderIndependent(cfg: Config, req: Request, h: Handler)
    requires cfg.helpIntent != GetJokeIntent
    ensures forall i, j :: 0 <= i < j < |RequestHandlers| ==>
      !(CanHandle(cfg, RequestHandlers[i], req) && CanHandle(cfg, RequestHandlers[j], req))
    ensures Route(cfg, req) == Some(h) <==> CanHandle(cfg, h, req)
  {
  }

  /** GetJokeHandler's reply: the joke is spoken, repeated on a card under
      the skill's name, and the session ends; there is no reprompt. */
  function JokeResponse(joke: string): (r: Response)
    ensures r.speech == Some(joke) && r.reprompt.None?
    ensures r.card.Some? && r.card.value.title == SkillName && r.card.value.content == joke
    ensures r.shouldEndSession == Some(true)
  {
    Response(Some(joke), Some(SimpleCard(SkillName, joke)), None, Some(true))
  }

  /** HelpHandler's reply: the help sentence and nothing else. */
  function HelpResponse(): (r: Response)
    ensures r.speech == Some(HelpSpeech)
    ensures r.card.None? && r.reprompt.None? && r.shouldEndSession.None?
  {
    Response(Some(HelpSpeech), None, None, None)
  }

  /** ErrorHandler's reply: the same fixed joke as speech and as reprompt,
      no card, and no session flag. */
  function ErrorResponse(): (r: Response)
    ensures r.speech == Some(ErrorJoke) && r.reprompt == r.speech
    ensures r.card.None? && r.shouldEndSession.None?
  {
    Response(Some(ErrorJoke), None, Some(ErrorJoke), None)
  }

  /** The skill as written, for one request, the feed's answer and the random
      draw. Every request gets a reply except a joke request whose `getJoke`
      never settles. A joke reply speaks the joke, shows it on a card titled
      with the skill's name and ends the session; the help reply speaks the
      help text and sets nothing else; a session end gets the empty response;
      everything unhandled gets the error joke as speech and reprompt. */
  function Invoke(req: Request, feed: Feed, draw: int): (o: Outcome)
    requires ValidJokeDraw(feed, draw)
    ensures o == NoReply <==>
      Route(AsWritten, req) == Some(GetJokeHandler) && GetJoke(feed, draw) == NeverSettles
    ensures Route(AsWritten, req) == Some(GetJokeHandler) && o.Reply? ==>
      o == Reply(JokeResponse(GetJoke(feed, draw).joke))
    ensures Route(AsWritten, req) == Some(HelpHandler) ==> o == Reply(HelpResponse())
    ensures req.SessionEndedRequest? ==> o == Reply(EmptyResponse)
    ensures Route(AsWritten, req) == None ==> o == Reply(ErrorResponse())
  {
    match Route(AsWritten, req)
    case None => Reply(ErrorResponse())
    case Some(GetJokeHandler) =>
      (match GetJoke(feed, draw)
       case Settled(joke) => Reply(JokeResponse(joke))
       case NeverSettles => NoReply)
    case Some(HelpHandler) => Reply(HelpResponse())
    case Some(SessionEndedRequestHandler) => Reply(EmptyResponse)
  }

  /** Which handler answered can be read off the reply: only the joke reply
      carries a card or ends the session, and only the error reply carries a
      reprompt. */
  lemma ReplyIdentifiesHandler(req: Request, feed: Feed, draw: int)
    requires ValidJokeDraw(feed, draw)
    requires Invoke(req, feed, draw).Reply?
    ensures var r := Invoke(req, feed, draw).response;
      && (r.card.Some? <==> Route(AsWritten, req) == Some(GetJokeHandler))
      && (r.shouldEndSession == Some(true) <==> Route(AsWritten, req) == Some(GetJokeHandler))
      && (r.reprompt.Some? <==> Route(AsWritten, req) == None)
      && (r.speech.None? <==> req.SessionEndedRequest?)
  {
  }

  /** A launch with a usable listing is answered with a non-empty joke on a
      card titled with the skill's name. */
  lemma LaunchTellsJoke(listing: seq<Submission>, draw: int)
    requires ValidDraw(|listing| + 1, draw) && draw < |listing|
    ensures Invoke(LaunchRequest, Hot(listing), draw).Reply?
    ensures var r := Invoke(LaunchRequest, Hot(listing), draw).response;
      r.speech.Some? && |r.speech.value| > 0
      && r.card.Some? && r.card.value.title == SkillName && r.card.value.content == r.speech.value
  {
    assert SubmissionIndex(|listing|, draw) == draw;
  }

  /** A joke reply, as written or corrected, tells a submission of the
      listing the feed returned and nothing else. */
  lemma JokeReplyTellsListedSubmission(req: Request, feed: Feed, draw: int)
    requires ValidJokeDraw(feed, draw)
    requires feed.Hot? && |feed.listing| > 0 ==> ValidDraw(|feed.listing|, draw)
    ensures Route(AsWritten, req) == Some(GetJokeHandler) && Invoke(req, feed, draw).Reply? ==>
      exists i :: 0 <= i < |feed.listing| &&
        Invoke(req, feed, draw) == Reply(JokeResponse(FormatJoke(feed.listing[i])))
    ensures Route(Corrected, req) == Some(GetJokeHandler) && feed.Hot? && |feed.listing| > 0 ==>
      exists i :: 0 <= i < |feed.listing| &&
        InvokeCorrected(req, feed, draw) == Reply(JokeResponse(FormatJoke(feed.listing[i])))
  {
    if Route(AsWritten, req) == Some(GetJokeHandler) && Invoke(req, feed, draw).Reply? {
      var i := SubmissionIndex(|feed.listing|, draw);
      assert Invoke(req, feed, draw) == Reply(JokeResponse(FormatJoke(feed.listing[i])));
    }
    if Route(Corrected, req) == Some(GetJokeHandler) && feed.Hot? && |feed.listing| > 0 {
      var i := FetchJokeTellsListedSubmission(feed, draw);
      assert InvokeCorrected(req, feed, draw) == Reply(JokeResponse(FormatJoke(feed.listing[i])));
    }
  }

  /** When the feed is unavailable, a joke request gets no reply at all: the
      error handler is never reached. */
  lemma JokeRequestGoesSilent(req: Request, draw: int)
    requires Route(AsWritten, req) == Some(GetJokeHandler)
    ensures Invoke(req, Unavailable, draw) == NoReply
  {
  }

  /** The platform's built-in help intent is not the one the help handler
      accepts, so asking for help is answered by the error handler. */
  lemma BuiltInHelpIsUnhandled(feed: Feed, draw: int)
    requires ValidJokeDraw(feed, draw)
    ensures Route(AsWritten, IntentRequest(Corrected.helpIntent)) == None
    ensures Invoke(IntentRequest(Corrected.helpIntent), feed, draw) == Reply(ErrorResponse())
  {
  }

  /** There is no cancel or stop handler: those intents, like any intent
      other than the two named ones, get the error joke. */
  lemma StopIntentGetsErrorJoke(feed: Feed, draw: int)
    requires ValidJokeDraw(feed, draw)
    ensures Invoke(IntentRequest("AMAZON.StopIntent"), feed, draw) == Reply(ErrorResponse())
    ensures Invoke(IntentRequest("AMAZON.CancelIntent"), feed, draw) == Reply(ErrorResponse())
  {
  }

  /** The skill with its evident intent restored: the help handler answers the
      built-in help intent, and a failed fetch reaches the error handler
      instead of leaving the request unanswered. Every request is answered. */
  function InvokeCorrected(req: Request, feed: Feed, draw: int): (o: Outcome)
    requires feed.Hot? && |feed.listing| > 0 ==> ValidDraw(|feed.listing|, draw)
    ensures o.Reply?
    ensures Route(Corrected, req) == Some(GetJokeHandler) ==>
      (o.response == ErrorResponse() <==> feed.Unavailable? || feed == Hot([]))
    ensures Route(Corrected, req) == Some(GetJokeHandler) && FetchJoke(feed, draw).Success? ==>
      o == Reply(JokeResponse(FetchJoke(feed, draw).value))
    ensures req == IntentRequest("AMAZON.HelpIntent") ==> o == Reply(HelpResponse())
    ensures req.SessionEndedRequest? ==> o == Reply(EmptyResponse)
    ensures Route(Corrected, req) == None ==> o == Reply(ErrorResponse())
  {
    match Route(Corrected, req)
    case None => Reply(ErrorResponse())
    case Some(GetJokeHandler) =>
      (match FetchJoke(feed, draw)
       case Success(joke) => Reply(JokeResponse(joke))
       case Failure(_) => Reply(ErrorResponse()))
    case Some(HelpHandler) => Reply(HelpResponse())
    case Some(SessionEndedRequestHandler) => Reply(EmptyResponse)
  }

  /** The corrections change nothing where the source already answers: for
      any request other than the two help intent names, a reply of the skill
      as written is also the corrected skill's reply. */
  lemma CorrectedAgreesWithReplies(req: Request, feed: Feed, draw: int)
    requires ValidJokeDraw(feed, draw)
    requires feed.Hot? && |feed.listing| > 0 ==> ValidDraw(|feed.listing|, draw)
    requires req != IntentRequest(AsWritten.helpIntent) && req != IntentRequest(Corrected.helpIntent)
    requires Invoke(req, feed, draw).Reply?
    ensures InvokeCorrected(req, feed, draw) == Invoke(req, feed, draw)
  {
    if Route(AsWritten, req) == Some(GetJokeHandler) {
      FetchJokeAgreesWhenSettled(feed, draw);
    }
  }
}

=== FILE: text.dfy ===
/**
  Whitespace trimming as done by JavaScript's `String.prototype.trim`, which the
  joke formatter applies to a submission's title and self text (index.js:31, 36).
 */
module Text {

  /** The characters `trim` removes: ECMAScript's WhiteSpace and LineTerminator
      productions. These are tab, vertical tab, form feed, space, no-break
      space, the byte order mark and the other Unicode space separators, then
      line feed, carriage return, line separator and paragraph separator. */
  predicate IsWhitespace(c: char) {
    || c == '\t' || c == '\U{000B}' || c == '\U{000C}' || c == ' '
    || c == '\U{00A0}' || c == '\U{FEFF}'
    || c == '\U{1680}' || ('\U{2000}' <= c <= '\U{200A}')
    || c == '\U{202F}' || c == '\U{205F}' || c == '\U{3000}'
    || c == '\n' || c == '\r' || c == '\U{2028}' || c == '\U{2029}'
  }

  predicate AllWhitespace(s: string) {
    forall i :: 0 <= i < |s| ==> IsWhitespace(s[i])
  }

  /** Neither end of `s` is whitespace (vacuously true of the empty string). */
  predicate IsTrimmed(s: string) {
    s == [] || (!IsWhitespace(s[0]) && !IsWhitespace(s[|s| - 1]))
  }

  /** The first position at or after `i` that does not hold whitespace, or
      `|s|` when there is none. */
  function SkipForward(s: string, i: nat): (b: nat)
    requires i <= |s|
    ensures i <= b <= |s|
    ensures forall k :: i <= k < b ==> IsWhitespace(s[k])
    ensures b < |s| ==> !IsWhitespace(s[b])
    decreases |s| - i
  {
    if i < |s| && IsWhitespace(s[i]) then SkipForward(s, i + 1) else i
  }

  /** The smallest end `e` in [lo, j] such that `s[e..j]` is all whitespace:
      `j` moved back over whitespace, but not below `lo`. */
  function SkipBackward(s: string, lo: nat, j: nat): (e: nat)
    requires lo <= j <= |s|
    ensures lo <= e <= j
    ensures forall k :: e <= k < j ==> IsWhitespace(s[k])
    ensures e > lo ==> !IsWhitespace(s[e - 1])
    decreases j
  {
    if j > lo && IsWhitespace(s[j - 1]) then SkipBackward(s, lo, j - 1) else j
  }

  /** JavaScript's `s.trim()`: both ends stripped of whitespace. */
  function Trim(s: string): (r: string)
    ensures |r| <= |s|
    ensures IsTrimmed(r)
  {
    var b := SkipForward(s, 0);
    var e := SkipBackward(s, b, |s|);
    s[b..e]
  }

  /** Trimming only removes whitespace: `s` is the trimmed string with a
      whitespace-only prefix and suffix around it. */
  lemma TrimSplit(s: string) returns (lead: string, trail: string)
    ensures s == lead + Trim(s) + trail
    ensures AllWhitespace(lead) && AllWhitespace(trail)
  {
    var b := SkipForward(s, 0);
    var e := SkipBackward(s, b, |s|);
    lead := s[..b];
    trail := s[e..];
    assert s == s[..b] + s[b..e] + s[e..];
  }

  /** The trimmed form of a string is determined by its non-whitespace core:
      padding a trimmed string with whitespace on either side and trimming
      gives it back. Together with `TrimSplit` this characterises `Trim`. */
  lemma TrimOfPadded(lead: string, t: string, trail: string)
    requires AllWhitespace(lead) && AllWhitespace(trail)
    requires IsTrimmed(t)
    ensures Trim(lead + t + trail) == t
  {
    var s := lead + t + trail;
    var b := SkipForward(s, 0);
    var e := SkipBackward(s, b, |s|);
    assert forall k :: 0 <= k < |lead| ==> s[k] == lead[k];
    assert forall k :: 0 <= k < |t| ==> s[|lead| + k] == t[k];
    assert forall k :: 0 <= k < |trail| ==> s[|lead| + |t| + k] == trail[k];
    if t == [] {
      assert b == |s|;
      assert e == b;
    } else {
      assert !IsWhitespace(s[|lead|]);
      assert b == |lead|;
      assert !IsWhitespace(s[|lead| + |t| - 1]);
      assert e == |lead| + |t|;
      assert s[b..e] == t;
    }
  }

  /** Trimming twice is trimming once. */
  lemma TrimIdempotent(s: string)
    ensures Trim(Trim(s)) == Trim(s)
  {
    var t := Trim(s);
    TrimOfPadded([], t, []);
    assert [] + t + [] == t;
  }

  /** A string of whitespace only trims to the empty string. */
  lemma TrimAllWhitespace(s: string)
    requires AllWhitespace(s)
    ensures Trim(s) == []
  {
    TrimOfPadded(s, [], []);
    assert s + [] + [] == s;
  }
}

=== FILE: wrappers.dfy ===
/** Small failure-carrying datatypes shared by the other modules. */
module Wrappers {

  /** A value that may be absent: an optional response field, or "no handler matched". */
  datatype Option<+T> = None | Some(value: T)

  /** Either a value or an error; used where a corrected operation reports a failure. */
  datatype Result<+R, +E> = Success(value: R) | Failure(error: E)
}
